=== FILE: README.md ===
# ComfyUI Node HUD — a Dafny model of the stack-info dock

ComfyUI-Node-HUD adds a "Toggle Stack Info" entry to a node's context menu.
While it is on, the node (the *parent*) shows a dock: one chip per node whose
top-left anchor lies inside the parent's rectangle. A chip has coloured dots
for the node's connected inputs (left) and linked outputs (right). A node with
neither gets a single red dot. The chip also shows the node's title (or type),
cut to 18 characters plus `..`, and a border colour taken from the node's mode.

The repository holds two near-duplicate versions of this overlay, and both are
modelled:

- `web/node_hud.js` builds the dock as a DOM element. On every draw callback of
  the parent it removes, creates or keeps the element. It rebuilds the chips
  only when the comma-joined list of contained node ids (the *signature*)
  changes.
- `web/js/node_hud.js` draws the chips on the canvas under the parent. It lays
  them out left to right and stops at the first chip that would overflow the
  node's width.

Their common parts are defined once:

| module | file | what |
|---|---|---|
| `Options` | options.dfy | `Option`, and `FirstPresent`: an ordered chain of fallbacks where the first present answer wins |
| `Collecting` | collect.dfy | `Collect(xs, f)`, the loop that pushes `f(x)` when present, used three times by the source; generic lemmas for append, count, rank/placement, origin, emptiness, filter membership and idempotence |
| `HostGraph` | graph.dfy | the host objects the overlay reads (node, ports, link, graph, host colour table) and JavaScript truthiness of link ids and table entries |
| `Containment` | containment.dfy | `getHiddenNodes` |
| `Signatures` | signature.dfy | the id signature `ids.map(String).join(",")`, proved injective |
| `LinkColors` | linkcolor.dfy | `getLinkColor` in both variants |
| `Chips` | chips.dfy | the dots, the red fallback dot, the label and chip content |
| `DomDock` | dom_dock.dfy | DOM border, the Absent/Visible dock state machine, rebuild diffing, the menu toggle |
| `CanvasDock` | canvas_dock.dfy | canvas border, chip width, packing, the canvas draw hook |

The two files contain identical code for `getHiddenNodes`, the input and
output dot loops, the fallback dot and the label. Each shared member is cited
once, against whichever file's lines the row names.

All host state arrives as parameters:

- the graph (`app.graph`, possibly absent);
- the parent node;
- the host colour table (`LGraphCanvas.link_type_colors`);
- the toggle;
- for the canvas version, the text-width function that stands for `ctx.measureText`.

Coordinates are `real`; the containment test compares them with `<=` and `<`
only.

Neither file restricts containment by z-order, skips collapsed nodes, checks
the zoom level or offsets the rectangle on screen, so containment is a
rectangle test only.

One consequence the model makes explicit is `Chips.VaeInputLooksDisconnected`.
The fixed colour for `VAE` links (`#ff4444`) is the same colour as the
"disconnected" dot. So when the host colour table has no truthy `VAE` entry,
a node with one input, linked to a VAE link, and no linked output shows
exactly the same chip dots as a node with no connections at all.

## Model

| member | source | states |
|---|---|---|
| HostGraph.TableColor | web/node_hud.js:81 | a host-table entry counts only when its key is present and its value is non-empty, as `if (colorMap[type])` treats `""` as falsy |
| Containment.HiddenNodes | web/node_hud.js:54-73 | an absent graph or absent node list gives the empty result. Otherwise a node is in the result iff it is in the graph's node list, has an id different from the parent's, and has its anchor in `[left, left+w) x [top, top+h)`. The parent's id is never in the result |
| Containment.HiddenNodesCount | web/js/node_hud.js:47-54 | the result has exactly one entry per position of the node list that holds a hidden node |
| Containment.HiddenNodesKeepOrder | web/js/node_hud.js:38-56 | hidden nodes at positions i < j of the node list appear in the result in that order, each at its rank (the number of hidden nodes before it) |
| Containment.HiddenNodesOrigin | web/node_hud.js:63-71 | every entry of the result is a hidden node of the node list, taken from the position whose rank is the entry's index |
| Containment.HiddenNodesIdempotent | web/node_hud.js:63-72 | running the query again over its own result returns that result unchanged |
| Signatures.IntToDecimal | web/node_hud.js:109 | a node id's decimal form is non-empty, contains no comma, and starts with `-` exactly for negative ids |
| Signatures.Signature | web/node_hud.js:109 | the comma-joined signature is `""` exactly when no node is contained |
| Signatures.SignatureInjective | web/node_hud.js:109-111 | two signatures are equal iff the ordered id lists are equal, so comparing signature strings compares id lists |
| LinkColors.LinkColor | web/js/node_hud.js:59-78 | a truthy host-table entry for the link's type wins. Failing that, the fixed nine-type table gives the colour (STRING `#66ff66`, INT and FLOAT `#22cc22`, ...). Failing both, `#aaaaff`. The result is never empty |
| LinkColors.LinkColorIsFirstPresentStrategy | web/js/node_hud.js:63-77 | the if-chain equals the ordered strategy list [host table, fixed table] with default `#aaaaff` |
| LinkColors.LinkColorOrDefault | web/node_hud.js:76-94 | an absent link gives `#aaaaff`. A present link gets the host colour, else the fixed-table colour, else `#aaaaff` |
| Chips.LeftDots | web/node_hud.js:128-136 | one left dot per input whose link id is truthy and resolves in `graph.links`, and no other dots. There are none exactly when no input is so connected; an absent input list gives none |
| Chips.LeftDotPlacement | web/js/node_hud.js:123-131 | the dot of connected input i has the colour `getLinkColor` gives its link, and it sits right after the dots of the connected inputs before i |
| Chips.ZeroLinkIdIsUnconnected | web/node_hud.js:131 | an input whose link id is 0 adds no dot, even when the graph holds a link with id 0 |
| Chips.OutputColor | web/js/node_hud.js:136-146 | a linked output's dot takes its first link's colour when that id resolves. If it does not, the host colour for `output.type` is used. Failing that, `#66ff66` for STRING, else `#cccccc` |
| Chips.OutputColorIsFirstPresentStrategy | web/js/node_hud.js:138-146 | the output colour equals the ordered strategy list [first link, host table by type, STRING colour] with default `#cccccc` |
| Chips.RightDots | web/node_hud.js:137-151 | one right dot per output whose link list is present and non-empty, and no other dots; none exactly when no output is linked |
| Chips.RightDotPlacement | web/js/node_hud.js:133-149 | the dot of linked output i has that output's colour, and it sits right after the dots of the linked outputs before i |
| Chips.NodeDots | web/js/node_hud.js:151-154 | a node with no connected input and no linked output gets exactly one dot, `#ff4444`, on the left and none on the right. Any other node gets its left and right dots unchanged. Every node has at least one dot |
| Chips.VaeInputLooksDisconnected | web/node_hud.js:152-155 | for every node with exactly one input, whose truthy link id resolves to a VAE link, and no linked output (absent, empty or unlinked outputs), when the host table has no VAE colour: the node is not disconnected, yet its dots equal those of the same node with no links, the lone `#ff4444` dot |
| Chips.Truncate | web/node_hud.js:168-169 | a label longer than 20 becomes its first 18 characters then `..` (length 20). The label is unchanged iff it has at most 20 characters. The result is never longer than 20 |
| Chips.TruncateIdempotent | web/js/node_hud.js:158 | truncating a truncated label changes nothing |
| Chips.Label | web/js/node_hud.js:157-158 | the label is the truncated title when the title is non-empty, otherwise the truncated node type (the empty title is falsy); never longer than 20 |
| Chips.ChipOf | web/js/node_hud.js:118-158 | a chip records the node's id and its label. A disconnected node's chip has the lone `#ff4444` dot on the left and none on the right; any other node's chip has its left dots and right dots. Every chip has at least one dot |
| DomDock.DomBorder | web/node_hud.js:121-122 | a border colour is set exactly for modes 2 and 4: `#888888` for mode 2, `#cc66ff` for mode 4; otherwise the stylesheet's stays |
| DomDock.BuildChips | web/node_hud.js:116-182 | one chip per contained node, in the same order and with the same ids. Chip k holds the dots and label of node k and the border its mode gives, present exactly for modes 2 and 4 |
| DomDock.UpdateDock | web/node_hud.js:97-113 | afterwards the dock exists and its stored signature is the current one. Chips are rebuilt iff the dock was just created (its signature reset to `""`) or the stored signature differs. A rebuild replaces the chips with those of the current nodes; otherwise the dock is unchanged. The signature/chips agreement is preserved |
| DomDock.RebuildIffIdsChange | web/node_hud.js:107-113 | for a shown dock whose signature matches its chips, chips are rebuilt exactly when the ordered list of contained ids differs from the chips' ids |
| DomDock.OnDrawForeground | web/node_hud.js:32-49 | after a callback, the dock exists iff the toggle is on and some node is hidden. Its signature is that of the current result. While shown, chips are rebuilt iff the dock was absent or its stored signature differs from the current one. A rebuild installs the chips of the hidden nodes built from the graph's links; without a rebuild a shown dock is unchanged. A freshly created dock always rebuilds, and a rebuild changes the dock. The signature/chips agreement is preserved |
| DomDock.SteadyStateKeepsChips | web/node_hud.js:109-111 | two callbacks in a row that find the same ordered ids: the second rebuilds nothing and keeps the dock, even if the nodes' links, titles or modes changed |
| DomDock.ToggleStackInfo | web/node_hud.js:21-25 | the menu callback flips the toggle and leaves the dock for the next draw |
| DomDock.FirstToggleBuildsDock | web/node_hud.js:21-45 | before the menu is first used the toggle is off and a draw shows nothing; after the first toggle, the next draw rebuilds and installs the chips of the hidden nodes |
| DomDock.ToggleOffThenOnRebuilds | web/node_hud.js:35-45 | toggling off removes a shown dock at the next draw. Toggling on again recreates it with freshly built chips |
| CanvasDock.CanvasBorder | web/js/node_hud.js:168-170 | `#888888` iff mode 2, `#cc66ff` iff mode 4, `#444` for every other mode |
| CanvasDock.BordersAgree | web/js/node_hud.js:167-170 | the canvas border is the DOM version's border with `#444` in place of the stylesheet default |
| CanvasDock.ChipWidth | web/js/node_hud.js:161-163 | chip width is 12 + 8 × (left dots + right dots) + text width |
| CanvasDock.Layout | web/js/node_hud.js:114-209 | the drawn chips are a prefix of the cards, in order, each with its chip width. Every drawn chip ends at or before the node width. The first starts at the initial x, each next one `6` past the end of the previous. If layout stops early, the first undrawn chip would overflow |
| CanvasDock.DrawDock | web/js/node_hud.js:81-209 | the drawn chips are the cards of a prefix of the given nodes, in order, starting at x = 6, each `6` past the end of the previous, all within the node width. If drawing stops early, the chip of the first undrawn node would overflow |
| CanvasDock.OnDrawForeground | web/js/node_hud.js:22-33 | nothing is drawn when the toggle is off or no node is hidden. Otherwise the drawn chips are the chips of a prefix of the hidden nodes, in order, starting at x = 6, chained `6` apart, all within the parent's width, and drawing stops only at the first hidden node whose chip would overflow |
| CanvasDock.ChainedApart | web/js/node_hud.js:209 | in a chain of chips of non-negative width, every later chip starts past the end of every earlier one plus the padding |
| CanvasDock.ChipsDoNotOverlap | web/js/node_hud.js:163-209 | with non-negative text widths, drawn chips do not overlap |

## Left out

- Stylesheet injection (web/node_hud.js:4-8), extension registration and the wrapping of `getExtraMenuOptions` and `onDrawForeground` (including calling the previous implementation) are host glue. The menu callback is reduced to flipping the toggle.
- The redraw request `app.graph.setDirtyCanvas(true, true)` is a host side effect and is not modelled.
- DOM construction (`createElement`, `innerHTML`, `className`, `style.*`) and every canvas drawing call are rendering side effects. Chips are descriptor records instead.
- Dock positioning (web/node_hud.js:185-206) is floating-point camera arithmetic and CSS string formatting. It is left out.
- Vertical layout constants (dock height, chip height, dot radius) and the x positions of dots and text inside a chip (web/js/node_hud.js:84-112, 172-207) only affect drawing. They are left out.
- `ctx.measureText` is a foreign, float-valued call. It is the parameter `measure`. CanvasDock.ChipsDoNotOverlap assumes it is non-negative, which the canvas provides but the source does not check.
- The `if (!node.size) return;` guard of `drawDock` (web/js/node_hud.js:82) is not modelled. Whenever a graph and its node list are present, `getHiddenNodes` has already read `parent.size[0]` (line 43), so a missing size faults before the guard. Without a node list it returns early with the empty list, and the hook then draws nothing before `drawDock` is reached. `Node.size` is therefore always present.
- Faults from malformed host objects are not modelled: a missing `pos`, a missing `type` when the title is empty, an absent `graph.links` (web/node_hud.js:132), and an absent `LGraphCanvas.link_type_colors` (web/node_hud.js:81). The graph's links and the host table are always present maps here.
- A `null` first entry in `output.links` is not a fault: `graph.links[null]` looks up the key `"null"`, finds nothing and falls through to the `output.type` fallback, like any id that does not resolve. The model's integer ids cover this case as an id absent from the links.
- A missing or null title is modelled as the empty string, which is falsy in `title || type`.
- Label length is counted in Dafny characters, not JavaScript UTF-16 code units.
- Node ids are integers written in plain decimal. `String(id)` switches to exponent notation at 10^21, and ids may be non-numeric in other hosts; neither is modelled.
- Host colour-table keys inherited from `Object.prototype` (e.g. `"constructor"`) are truthy in JavaScript; the table is a plain map here.
- Removing the parent node from the graph stops its draw callbacks, so a shown DOM dock is never removed. There is no callback to model this with.
- A z-order restriction, a collapsed-node check, a zoom threshold, wheel-event interception and on-screen rectangle or page-scroll offsets are absent from both files and are not modelled.
- Floating-point rounding is not modelled: coordinates and widths are exact reals. The sums `parent.pos[0] + parent.size[0]` (web/node_hud.js:59, web/js/node_hud.js:43), `currentX + chipWidth` (web/js/node_hud.js:165) and `currentX += chipWidth + padding` (web/js/node_hud.js:209) are rounded in JavaScript. At an exact boundary, the rounded and exact sums can decide a comparison differently.

=== FILE: canvas_dock.dfy ===
/** The canvas-drawn dock of web/js/node_hud.js: chips are laid out left to
    right under the parent node, and layout stops at the first chip that
    would run past the node's width. Text width comes from the canvas
    (`ctx.measureText`) and is a parameter here. */
module CanvasDock {
  import opened Options
  import opened HostGraph
  import opened Containment
  import opened Chips
  import DomDock

  /** Gap before the first chip and between chips (`padding`). */
  const Padding: real := 6.0
  /** Horizontal room per dot (`dotSpacing`). */
  const DotSpacing: real := 8.0
  /** Room between a chip's edge and its dots on either side. */
  const DotInset: real := 6.0

  /** The chip border by node mode, with "#444" for every other mode. */
  function CanvasBorder(mode: int): (r: Color)
    ensures r == "#888888" <==> mode == 2
    ensures r == "#cc66ff" <==> mode == 4
    ensures r == "#444" <==> mode != 2 && mode != 4
  {
    if mode == 2 then "#888888"        // muted
    else if mode == 4 then "#cc66ff"   // bypassed
    else "#444"
  }

  /** Both versions colour muted and bypassed chips alike; the canvas
      version spells out the default that the DOM version leaves to CSS. */
  lemma BordersAgree(mode: int)
    ensures CanvasBorder(mode) == DomDock.DomBorder(mode).GetOr("#444")
  {
  }

  /** `leftSpace + textWidth + rightSpace` for a chip. */
  function ChipWidth(chip: Chip, measure: string -> real): (w: real)
    ensures w == 12.0 + 8.0 * ((|chip.left| + |chip.right|) as real) + measure(chip.text)
  {
    var leftSpace := DotInset + (|chip.left| as real) * DotSpacing;
    var rightSpace := DotInset + (|chip.right| as real) * DotSpacing;
    leftSpace + measure(chip.text) + rightSpace
  }

  /** What `drawDock` draws for one hidden node: the chip and its border. */
  datatype Card = Card(chip: Chip, border: Color)

  function CardOf(table: ColorTable, links: map<int, Link>, node: Node): Card {
    Card(ChipOf(table, links, node), CanvasBorder(node.mode))
  }

  function Cards(table: ColorTable, links: map<int, Link>, stack: seq<Node>): (r: seq<Card>)
    ensures |r| == |stack|
    ensures forall k :: 0 <= k < |r| ==> r[k] == CardOf(table, links, stack[k])
  {
    seq(|stack|, k requires 0 <= k < |stack| => CardOf(table, links, stack[k]))
  }

  /** A card as drawn: its left edge and width. */
  datatype Placed = Placed(card: Card, x: real, width: real)

  /** Where the next chip would start after `placed`, the first at `x`. */
  function NextX(x: real, placed: seq<Placed>): real {
    if |placed| == 0 then x else placed[|placed| - 1].x + placed[|placed| - 1].width + Padding
  }

  /** The loop of `drawDock` from `currentX == x`: place each card after the
      previous one and stop (`break`) at the first that would overflow. */
  function Layout(cards: seq<Card>, x: real, nodeWidth: real, measure: string -> real): (r: seq<Placed>)
    ensures |r| <= |cards|
    ensures forall k :: 0 <= k < |r| ==> r[k].card == cards[k]
    ensures forall k :: 0 <= k < |r| ==> r[k].width == ChipWidth(cards[k].chip, measure)
    ensures forall k :: 0 <= k < |r| ==> r[k].x + r[k].width <= nodeWidth
    ensures |r| > 0 ==> r[0].x == x
    ensures Chained(r)
    ensures |r| < |cards| ==> NextX(x, r) + ChipWidth(cards[|r|].chip, measure) > nodeWidth
    decreases |cards|
  {
    if |cards| == 0 then []
    else
      var chipWidth := ChipWidth(cards[0].chip, measure);
      if x + chipWidth > nodeWidth then []
      else [Placed(cards[0], x, chipWidth)] + Layout(cards[1..], x + chipWidth + Padding, nodeWidth, measure)
  }

  /** `drawDock` for a list of nodes: their cards, laid out from
      `currentX == padding` within `nodeWidth`. */
  function DrawDock(table: ColorTable, links: map<int, Link>, stack: seq<Node>, nodeWidth: real,
                    measure: string -> real): (r: seq<Placed>)
    ensures |r| <= |stack|
    ensures forall k :: 0 <= k < |r| ==> r[k].card == CardOf(table, links, stack[k])
    ensures forall k :: 0 <= k < |r| ==> r[k].x + r[k].width <= nodeWidth
    ensures |r| > 0 ==> r[0].x == Padding
    ensures Chained(r)
    ensures |r| < |stack| ==>
              NextX(Padding, r) + ChipWidth(CardOf(table, links, stack[|r|]).chip, measure) > nodeWidth
  {
    CardsOfPrefix(table, links, stack, nodeWidth, measure);
    Layout(Cards(table, links, stack), Padding, nodeWidth, measure)
  }

  /** The cards `Layout` places, and the first it leaves out, are those of
      the nodes at the same positions. */
  lemma CardsOfPrefix(table: ColorTable, links: map<int, Link>, stack: seq<Node>, nodeWidth: real,
                      measure: string -> real)
    ensures var r := Layout(Cards(table, links, stack), Padding, nodeWidth, measure);
            && (forall k :: 0 <= k < |r| ==> r[k].card == CardOf(table, links, stack[k]))
            && (|r| < |stack| ==> Cards(table, links, stack)[|r|] == CardOf(table, links, stack[|r|]))
  {
  }

  /** The `onDrawForeground` hook with `drawDock`: nothing unless the toggle
      is on and some node is hidden; then the cards of the hidden nodes that
      fit, in order, from `currentX == padding`, each `Padding` after the
      previous, stopping at the first that would overflow. */
  function OnDrawForeground(show: bool, parent: Node, graph: Option<Graph>, table: ColorTable,
                            measure: string -> real): (r: seq<Placed>)
    ensures !show || HiddenNodes(parent, graph) == [] ==> r == []
    ensures |r| <= |HiddenNodes(parent, graph)|
    ensures forall k :: 0 <= k < |r| ==> r[k].card == CardOf(table, LinksOf(graph), HiddenNodes(parent, graph)[k])
    ensures forall k :: 0 <= k < |r| ==> r[k].x + r[k].width <= parent.size.w
    ensures |r| > 0 ==> r[0].x == Padding
    ensures Chained(r)
    ensures show && |r| < |HiddenNodes(parent, graph)| ==>
              NextX(Padding, r)
              + ChipWidth(CardOf(table, LinksOf(graph), HiddenNodes(parent, graph)[|r|]).chip, measure)
              > parent.size.w
  {
    var stack := HiddenNodes(parent, graph);
    if !show || |stack| == 0 then []
    else DrawDock(table, LinksOf(graph), stack, parent.size.w, measure)
  }

  /** Each placed chip starts `Padding` after the end of the one before it. */
  predicate Chained(r: seq<Placed>) {
    forall k :: 0 <= k < |r| - 1 ==> r[k + 1].x == r[k].x + r[k].width + Padding
  }

  /** In a chain of chips of non-negative width, a later chip starts past
      the end of any earlier one. */
  lemma ChainedApart(r: seq<Placed>, i: int, j: int)
    requires Chained(r)
    requires forall k :: 0 <= k < |r| ==> r[k].width >= 0.0
    requires 0 <= i < j < |r|
    ensures r[i].x + r[i].width + Padding <= r[j].x
  {
    var k := i + 1;
    while k < j
      invariant i + 1 <= k <= j
      invariant r[i].x + r[i].width + Padding <= r[k].x
    {
      assert r[k + 1].x == r[k].x + r[k].width + Padding;
      k := k + 1;
    }
  }

  /** With non-negative text widths the drawn chips do not overlap. */
  lemma ChipsDoNotOverlap(cards: seq<Card>, x: real, nodeWidth: real, measure: string -> real, i: int, j: int)
    requires forall s :: measure(s) >= 0.0
    requires 0 <= i < j < |Layout(cards, x, nodeWidth, measure)|
    ensures var r := Layout(cards, x, nodeWidth, measure);
            r[i].x + r[i].width + Padding <= r[j].x
  {
    var r := Layout(cards, x, nodeWidth, measure);
    forall k | 0 <= k < |r|
      ensures r[k].width >= 0.0
    {
      assert r[k].width == ChipWidth(cards[k].chip, measure);
      assert measure(cards[k].chip.text) >= 0.0;
    }
    ChainedApart(r, i, j);
  }
}

=== FILE: chips.dfy ===
/** What a chip says about one contained node, shared by both dock
    variants: coloured dots for its connected inputs (left) and linked
    outputs (right), a red dot when it has neither, and a truncated label. */
module Chips {
  import opened Options
  import opened Collecting
  import opened HostGraph
  import opened LinkColors

  /** The lone dot of a node with no connections. */
  const DisconnectedDotColor: Color := "#ff4444"
  /** An output whose first link does not resolve, of type STRING ... */
  const StringOutputColor: Color := "#66ff66"
  /** ... and of any other type without a host colour. */
  const UnlinkedOutputColor: Color := "#cccccc"

  /** Chip labels longer than this are cut. */
  const MaxLabel: nat := 20
  /** How many characters a cut label keeps before "..". */
  const KeptChars: nat := 18

  // ----- left dots: inputs -----

  /** An input counts when its link id is truthy (`if (input.link)`) and the
      id resolves in the graph's links (`if (link)`). */
  predicate InputConnected(links: map<int, Link>, input: InputSlot) {
    LinkIdTruthy(input.link) && input.link.value in links
  }

  function InputDot(table: ColorTable, links: map<int, Link>, input: InputSlot): Option<Color> {
    if InputConnected(links, input) then Some(LinkColor(table, links[input.link.value])) else None
  }

  function InputDotFn(table: ColorTable, links: map<int, Link>): InputSlot -> Option<Color> {
    input => InputDot(table, links, input)
  }

  /** The left dots of `node`: one per connected input, in port order. */
  function LeftDots(table: ColorTable, links: map<int, Link>, node: Node): (r: seq<Color>)
    ensures |r| == |set i | 0 <= i < |InputsOf(node)| && InputConnected(links, InputsOf(node)[i])|
    ensures r == [] <==> forall i :: 0 <= i < |InputsOf(node)| ==> !InputConnected(links, InputsOf(node)[i])
  {
    var ins := InputsOf(node);
    CollectCount(ins, InputDotFn(table, links));
    CollectEmpty(ins, InputDotFn(table, links));
    assert Hits(ins, InputDotFn(table, links))
        == set i | 0 <= i < |ins| && InputConnected(links, ins[i]);
    Collect(ins, InputDotFn(table, links))
  }

  /** The dot of connected input `i` is its link's colour, placed after the
      dots of the connected inputs before it. */
  lemma LeftDotPlacement(table: ColorTable, links: map<int, Link>, node: Node, i: int)
    requires 0 <= i < |InputsOf(node)| && InputConnected(links, InputsOf(node)[i])
    ensures Rank(InputsOf(node), InputDotFn(table, links), i) < |LeftDots(table, links, node)|
    ensures LeftDots(table, links, node)[Rank(InputsOf(node), InputDotFn(table, links), i)]
         == LinkColor(table, links[InputsOf(node)[i].link.value])
  {
    CollectRank(InputsOf(node), InputDotFn(table, links), i);
  }

  /** Link id 0 is falsy: such an input gets no dot even when the graph
      holds a link with id 0. */
  lemma ZeroLinkIdIsUnconnected(table: ColorTable, links: map<int, Link>, node: Node, i: int)
    requires 0 <= i < |InputsOf(node)| && InputsOf(node)[i].link == Some(0)
    ensures Rank(InputsOf(node), InputDotFn(table, links), i + 1)
         == Rank(InputsOf(node), InputDotFn(table, links), i)
  {
    var ins := InputsOf(node);
    var p := ins[..i + 1];
    assert p[..i] == ins[..i];
  }

  // ----- right dots: outputs -----

  /** An output counts when its link list is present and non-empty. */
  predicate HasLinks(output: OutputSlot) {
    output.links.Some? && |output.links.value| > 0
  }

  /** The colour of a linked output's dot: its first link's colour if that
      link resolves, else the host colour for the output's type, else the
      STRING colour for a STRING output, else grey. */
  function OutputColor(table: ColorTable, links: map<int, Link>, output: OutputSlot): (r: Color)
    requires HasLinks(output)
    ensures output.links.value[0] in links ==> r == LinkColor(table, links[output.links.value[0]])
    ensures output.links.value[0] !in links && TableColor(table, output.slotType).Some? ==>
              r == table[output.slotType]
    ensures output.links.value[0] !in links && TableColor(table, output.slotType).None? ==>
              r == (if output.slotType == "STRING" then StringOutputColor else UnlinkedOutputColor)
    ensures r != ""
  {
    var first := output.links.value[0];
    if first in links then LinkColor(table, links[first])
    else if TableColor(table, output.slotType).Some? then table[output.slotType]
    else if output.slotType == "STRING" then StringOutputColor
    else UnlinkedOutputColor
  }

  /** The output colour as an ordered list of strategies where the first
      present answer wins. */
  lemma OutputColorIsFirstPresentStrategy(table: ColorTable, links: map<int, Link>, output: OutputSlot)
    requires HasLinks(output)
    ensures OutputColor(table, links, output) == FirstPresent([
              var first := output.links.value[0];
              if first in links then Some(LinkColor(table, links[first])) else None,
              TableColor(table, output.slotType),
              if output.slotType == "STRING" then Some(StringOutputColor) else None
            ], UnlinkedOutputColor)
  {
    var first := output.links.value[0];
    var cs: seq<Option<Color>> := [
      if first in links then Some(LinkColor(table, links[first])) else None,
      TableColor(table, output.slotType),
      if output.slotType == "STRING" then Some(StringOutputColor) else None
    ];
    assert cs[1..][1..][1..] == [];
    if first !in links {
      assert FirstPresent(cs, UnlinkedOutputColor) == FirstPresent(cs[1..], UnlinkedOutputColor);
      if TableColor(table, output.slotType).None? {
        assert FirstPresent(cs[1..], UnlinkedOutputColor) == FirstPresent(cs[1..][1..], UnlinkedOutputColor);
      }
    }
  }

  function OutputDot(table: ColorTable, links: map<int, Link>, output: OutputSlot): Option<Color> {
    if HasLinks(output) then Some(OutputColor(table, links, output)) else None
  }

  function OutputDotFn(table: ColorTable, links: map<int, Link>): OutputSlot -> Option<Color> {
    output => OutputDot(table, links, output)
  }

  /** The right dots of `node`: one per linked output, in port order. */
  function RightDots(table: ColorTable, links: map<int, Link>, node: Node): (r: seq<Color>)
    ensures |r| == |set i | 0 <= i < |OutputsOf(node)| && HasLinks(OutputsOf(node)[i])|
    ensures r == [] <==> forall i :: 0 <= i < |OutputsOf(node)| ==> !HasLinks(OutputsOf(node)[i])
  {
    var outs := OutputsOf(node);
    CollectCount(outs, OutputDotFn(table, links));
    CollectEmpty(outs, OutputDotFn(table, links));
    assert Hits(outs, OutputDotFn(table, links)) == set i | 0 <= i < |outs| && HasLinks(outs[i]);
    Collect(outs, OutputDotFn(table, links))
  }

  /** The dot of linked output `i` has the colour of its first link (or the
      fallback chain), placed after the dots of the linked outputs before it. */
  lemma RightDotPlacement(table: ColorTable, links: map<int, Link>, node: Node, i: int)
    requires 0 <= i < |OutputsOf(node)| && HasLinks(OutputsOf(node)[i])
    ensures Rank(OutputsOf(node), OutputDotFn(table, links), i) < |RightDots(table, links, node)|
    ensures RightDots(table, links, node)[Rank(OutputsOf(node), OutputDotFn(table, links), i)]
         == OutputColor(table, links, OutputsOf(node)[i])
  {
    CollectRank(OutputsOf(node), OutputDotFn(table, links), i);
  }

  // ----- both sides -----

  datatype Dots = Dots(left: seq<Color>, right: seq<Color>)

  /** No input is connected and no output is linked. */
  predicate Disconnected(links: map<int, Link>, node: Node) {
    && (forall i :: 0 <= i < |InputsOf(node)| ==> !InputConnected(links, InputsOf(node)[i]))
    && (forall i :: 0 <= i < |OutputsOf(node)| ==> !HasLinks(OutputsOf(node)[i]))
  }

  /** Both dot lists, with the single red dot for a disconnected node. */
  function NodeDots(table: ColorTable, links: map<int, Link>, node: Node): (r: Dots)
    ensures Disconnected(links, node) ==> r == Dots([DisconnectedDotColor], [])
    ensures !Disconnected(links, node) ==>
              r == Dots(LeftDots(table, links, node), RightDots(table, links, node))
    ensures |r.left| + |r.right| >= 1
  {
    var left := LeftDots(table, links, node);
    var right := RightDots(table, links, node);
    if |left| == 0 && |right| == 0 then Dots([DisconnectedDotColor], []) else Dots(left, right)
  }

  /** The red dot does not single out disconnected nodes: a node whose one
      input is linked to a VAE link and whose outputs (if any) are unlinked,
      with no host colour for VAE, shows the same lone red dot as the same
      node with no links at all. */
  lemma VaeInputLooksDisconnected(table: ColorTable, links: map<int, Link>, node: Node, id: int)
    requires node.inputs == Some([InputSlot(Some(id))])
    requires forall k :: 0 <= k < |OutputsOf(node)| ==> !HasLinks(OutputsOf(node)[k])
    requires id != 0 && id in links && links[id].linkType == "VAE"
    requires TableColor(table, "VAE").None?
    ensures !Disconnected(links, node) && Disconnected(map[], node)
    ensures NodeDots(table, links, node) == NodeDots(table, map[], node) == Dots([DisconnectedDotColor], [])
  {
    assert InputConnected(links, InputsOf(node)[0]);
    CollectOne(InputsOf(node)[0], InputDotFn(table, links));
    CollectOne(InputsOf(node)[0], InputDotFn(table, map[]));
  }

  // ----- label -----

  /** `if (text.length > 20) text = text.substring(0, 18) + ".."` */
  function Truncate(text: string): (r: string)
    ensures |r| <= MaxLabel
    ensures r == text <==> |text| <= MaxLabel
    ensures |text| > MaxLabel ==> |r| == MaxLabel && r[..KeptChars] == text[..KeptChars] && r[KeptChars..] == ".."
  {
    if |text| > MaxLabel then text[..KeptChars] + ".." else text
  }

  lemma TruncateIdempotent(text: string)
    ensures Truncate(Truncate(text)) == Truncate(text)
  {
  }

  /** `item.title || item.type`, truncated: the empty title is falsy. */
  function Label(node: Node): (r: string)
    ensures node.title != "" ==> r == Truncate(node.title)
    ensures node.title == "" ==> r == Truncate(node.nodeType)
    ensures |r| <= MaxLabel
  {
    Truncate(if node.title != "" then node.title else node.nodeType)
  }

  /** The content of one chip, tagged with the id of the node it summarises. */
  datatype Chip = Chip(id: int, left: seq<Color>, text: string, right: seq<Color>)

  /** A chip: the node's id, its dots (the lone red dot when it is
      disconnected, its port dots otherwise) and its label. */
  function ChipOf(table: ColorTable, links: map<int, Link>, node: Node): (r: Chip)
    ensures r.id == node.id
    ensures Disconnected(links, node) ==> r.left == [DisconnectedDotColor] && r.right == []
    ensures !Disconnected(links, node) ==>
              r.left == LeftDots(table, links, node) && r.right == RightDots(table, links, node)
    ensures |r.left| + |r.right| >= 1
    ensures r.text == Label(node)
    ensures |r.text| <= MaxLabel
  {
    var dots := NodeDots(table, links, node);
    Chip(node.id, dots.left, Label(node), dots.right)
  }
}

=== FILE: collect.dfy ===
/** The accumulate-and-push loop that the overlay uses three times
    (`for (const x of xs) { if (...) out.push(...) }`), as one generic
    function with its properties proved once.

    `Collect(xs, f)` walks `xs` in order and appends the value of `f(x)`
    whenever `f(x)` is present. It recurses on the LAST element, so each
    step is exactly one `push` at the end of the output. */
module Collecting {
  import opened Options

  /** What one element contributes: a one-element or an empty sequence. */
  function Emit<B>(o: Option<B>): seq<B> {
    match o
    case Some(b) => [b]
    case None => []
  }

  function Collect<A, B>(xs: seq<A>, f: A -> Option<B>): (r: seq<B>)
    ensures |r| <= |xs|
    decreases |xs|
  {
    if |xs| == 0 then [] else Collect(xs[..|xs| - 1], f) + Emit(f(xs[|xs| - 1]))
  }

  /** The positions of `xs` that contribute an element. */
  ghost function Hits<A, B>(xs: seq<A>, f: A -> Option<B>): set<int> {
    set i | 0 <= i < |xs| && f(xs[i]).Some?
  }

  /** The index in the output at which the contribution of `xs[i]` lands:
      the number of elements contributed by the elements before it. */
  function Rank<A, B>(xs: seq<A>, f: A -> Option<B>, i: int): nat
    requires 0 <= i <= |xs|
  {
    |Collect(xs[..i], f)|
  }

  lemma CollectOne<A, B>(x: A, f: A -> Option<B>)
    ensures Collect([x], f) == Emit(f(x))
  {
  }

  /** Collecting a concatenation collects the parts in order. */
  lemma {:induction false} CollectAppend<A, B>(xs: seq<A>, ys: seq<A>, f: A -> Option<B>)
    ensures Collect(xs + ys, f) == Collect(xs, f) + Collect(ys, f)
    decreases |ys|
  {
    if |ys| == 0 {
      assert xs + ys == xs;
    } else {
      var zs := xs + ys;
      var ys' := ys[..|ys| - 1];
      assert zs[..|zs| - 1] == xs + ys';
      assert zs[|zs| - 1] == ys[|ys| - 1];
      CollectAppend(xs, ys', f);
    }
  }

  /** The output for a prefix of the input is a prefix of the output. */
  lemma CollectSplit<A, B>(xs: seq<A>, f: A -> Option<B>, j: int)
    requires 0 <= j <= |xs|
    ensures Collect(xs, f) == Collect(xs[..j], f) + Collect(xs[j..], f)
  {
    assert xs == xs[..j] + xs[j..];
    CollectAppend(xs[..j], xs[j..], f);
  }

  /** One output element per contributing input position, no more, no less. */
  lemma {:induction false} CollectCount<A, B>(xs: seq<A>, f: A -> Option<B>)
    ensures |Collect(xs, f)| == |Hits(xs, f)|
    decreases |xs|
  {
    if |xs| == 0 {
      assert Hits(xs, f) == {};
    } else {
      var n := |xs|;
      var p := xs[..n - 1];
      CollectCount(p, f);
      assert n - 1 !in Hits(p, f);
      if f(xs[n - 1]).Some? {
        assert Hits(xs, f) == Hits(p, f) + {n - 1};
      } else {
        assert Hits(xs, f) == Hits(p, f);
      }
    }
  }

  /** A contributing element's value sits at its rank in the output. */
  lemma CollectRank<A, B>(xs: seq<A>, f: A -> Option<B>, i: int)
    requires 0 <= i < |xs| && f(xs[i]).Some?
    ensures Rank(xs, f, i) < |Collect(xs, f)|
    ensures Collect(xs, f)[Rank(xs, f, i)] == f(xs[i]).value
  {
    CollectSplit(xs, f, i + 1);
    assert xs[..i + 1][..i] == xs[..i];
    assert Collect(xs[..i + 1], f) == Collect(xs[..i], f) + [f(xs[i]).value];
  }

  /** Ranks of contributing elements strictly increase with their position:
      the output keeps the input's order. */
  lemma CollectRankMonotone<A, B>(xs: seq<A>, f: A -> Option<B>, i: int, j: int)
    requires 0 <= i < j <= |xs| && f(xs[i]).Some?
    ensures Rank(xs, f, i) < Rank(xs, f, j)
  {
    var ys := xs[..j];
    assert ys[..i] == xs[..i];
    CollectRank(ys, f, i);
  }

  /** Every output element comes from the input position of that rank. */
  lemma {:induction false} CollectOrigin<A, B>(xs: seq<A>, f: A -> Option<B>, k: int)
    requires 0 <= k < |Collect(xs, f)|
    ensures exists i :: 0 <= i < |xs| && f(xs[i]) == Some(Collect(xs, f)[k]) && Rank(xs, f, i) == k
    decreases |xs|
  {
    var n := |xs|;
    var p := xs[..n - 1];
    var c := Collect(xs, f);
    assert c == Collect(p, f) + Emit(f(xs[n - 1]));
    if k < |Collect(p, f)| {
      CollectOrigin(p, f, k);
      var i :| 0 <= i < |p| && f(p[i]) == Some(Collect(p, f)[k]) && Rank(p, f, i) == k;
      assert p[..i] == xs[..i];
      assert xs[i] == p[i] && c[k] == Collect(p, f)[k];
      assert Rank(xs, f, i) == k;
    } else {
      assert f(xs[n - 1]).Some? && k == |Collect(p, f)|;
      assert c[k] == f(xs[n - 1]).value;
      assert Rank(xs, f, n - 1) == k;
    }
  }

  /** The output is empty exactly when no element contributes. */
  lemma {:induction false} CollectEmpty<A, B>(xs: seq<A>, f: A -> Option<B>)
    ensures Collect(xs, f) == [] <==> forall i :: 0 <= i < |xs| ==> f(xs[i]).None?
    decreases |xs|
  {
    if |xs| > 0 {
      var p := xs[..|xs| - 1];
      CollectEmpty(p, f);
      assert forall i :: 0 <= i < |p| ==> p[i] == xs[i];
    }
  }

  /** A filter: every element either contributes itself or nothing. */
  ghost predicate IsFilter<A(!new)>(f: A -> Option<A>) {
    forall x :: f(x).None? || f(x) == Some(x)
  }

  /** A filter's output holds exactly the input elements it keeps. */
  lemma FilterMembers<A(!new)>(xs: seq<A>, f: A -> Option<A>)
    requires IsFilter(f)
    ensures forall x :: x in Collect(xs, f) <==> x in xs && f(x).Some?
  {
  }

  /** Filtering a filter's output again changes nothing. */
  lemma {:induction false} FilterIdempotent<A(!new)>(xs: seq<A>, f: A -> Option<A>)
    requires IsFilter(f)
    ensures Collect(Collect(xs, f), f) == Collect(xs, f)
    decreases |xs|
  {
    if |xs| > 0 {
      var p := xs[..|xs| - 1];
      var x := xs[|xs| - 1];
      FilterIdempotent(p, f);
      CollectAppend(Collect(p, f), Emit(f(x)), f);
      if f(x).Some? {
        CollectOne(x, f);
      }
    }
  }
}

=== FILE: containment.dfy ===
/** The containment query `getHiddenNodes`: the nodes whose top-left
    anchor lies in the parent's half-open rectangle, in graph order,
    never the parent itself. */
module Containment {
  import opened Options
  import opened Collecting
  import opened HostGraph

  /** The anchor `n.pos` lies in `[left, left + w) x [top, top + h)` of `parent`. */
  predicate AnchorInside(parent: Node, n: Node) {
    && parent.pos.x <= n.pos.x < parent.pos.x + parent.size.w
    && parent.pos.y <= n.pos.y < parent.pos.y + parent.size.h
  }

  /** A node is hidden by `parent` when it is another node anchored inside it. */
  predicate HiddenBy(parent: Node, n: Node) {
    n.id != parent.id && AnchorInside(parent, n)
  }

  /** The per-node step of the query's loop: keep the node or skip it. */
  function Keep(parent: Node): Node -> Option<Node> {
    n => if HiddenBy(parent, n) then Some(n) else None
  }

  lemma KeepIsFilter(parent: Node)
    ensures IsFilter(Keep(parent))
  {
  }

  function HiddenNodes(parent: Node, graph: Option<Graph>): (r: seq<Node>)
    ensures graph.None? || graph.value.nodes.None? ==> r == []
    ensures forall n :: n in r <==> n in NodesOf(graph) && HiddenBy(parent, n)
    ensures forall n :: n in r ==> n.id != parent.id
  {
    KeepIsFilter(parent);
    FilterMembers(NodesOf(graph), Keep(parent));
    Collect(NodesOf(graph), Keep(parent))
  }

  /** The result lists one entry per hidden position of the node list. */
  lemma HiddenNodesCount(parent: Node, graph: Option<Graph>)
    ensures |HiddenNodes(parent, graph)|
         == |set i | 0 <= i < |NodesOf(graph)| && HiddenBy(parent, NodesOf(graph)[i])|
  {
    var ns := NodesOf(graph);
    CollectCount(ns, Keep(parent));
    assert Hits(ns, Keep(parent)) == set i | 0 <= i < |ns| && HiddenBy(parent, ns[i]);
  }

  /** Graph order is kept: two hidden nodes at positions `i < j` appear in
      the result in that order, each at the position given by its rank. */
  lemma HiddenNodesKeepOrder(parent: Node, graph: Option<Graph>, i: int, j: int)
    requires 0 <= i < j < |NodesOf(graph)|
    requires HiddenBy(parent, NodesOf(graph)[i]) && HiddenBy(parent, NodesOf(graph)[j])
    ensures Rank(NodesOf(graph), Keep(parent), i) < Rank(NodesOf(graph), Keep(parent), j)
               < |HiddenNodes(parent, graph)|
    ensures HiddenNodes(parent, graph)[Rank(NodesOf(graph), Keep(parent), i)] == NodesOf(graph)[i]
    ensures HiddenNodes(parent, graph)[Rank(NodesOf(graph), Keep(parent), j)] == NodesOf(graph)[j]
  {
    var ns := NodesOf(graph);
    CollectRank(ns, Keep(parent), i);
    CollectRank(ns, Keep(parent), j);
    CollectRankMonotone(ns, Keep(parent), i, j);
  }

  /** Each entry of the result is the hidden node whose rank it is. */
  lemma HiddenNodesOrigin(parent: Node, graph: Option<Graph>, k: int)
    requires 0 <= k < |HiddenNodes(parent, graph)|
    ensures exists i :: 0 <= i < |NodesOf(graph)| && NodesOf(graph)[i] == HiddenNodes(parent, graph)[k]
                        && HiddenBy(parent, NodesOf(graph)[i]) && Rank(NodesOf(graph), Keep(parent), i) == k
  {
    CollectOrigin(NodesOf(graph), Keep(parent), k);
  }

  /** Running the query over its own result returns that result unchanged. */
  lemma HiddenNodesIdempotent(parent: Node, graph: Option<Graph>)
    ensures HiddenNodes(parent, Some(Graph(Some(HiddenNodes(parent, graph)), LinksOf(graph))))
         == HiddenNodes(parent, graph)
  {
    KeepIsFilter(parent);
    FilterIdempotent(NodesOf(graph), Keep(parent));
  }
}

=== FILE: dom_dock.dfy ===
/** The DOM-based dock of web/node_hud.js: once per draw callback of the
    parent node it is removed, created, or kept, and its chips are rebuilt
    only when the comma-joined id signature of the contained nodes changes. */
module DomDock {
  import opened Options
  import opened HostGraph
  import opened Containment
  import opened Chips
  import opened Signatures

  /** The chip border by node mode; `None` leaves the stylesheet's colour. */
  function DomBorder(mode: int): (r: Option<Color>)
    ensures r.Some? <==> mode == 2 || mode == 4
    ensures mode == 2 ==> r == Some("#888888")
    ensures mode == 4 ==> r == Some("#cc66ff")
  {
    if mode == 2 then Some("#888888")        // muted
    else if mode == 4 then Some("#cc66ff")   // bypassed
    else None
  }

  datatype DomChip = DomChip(content: Chip, border: Option<Color>)

  function Ids(stack: seq<Node>): (r: seq<int>)
    ensures |r| == |stack|
  {
    seq(|stack|, k requires 0 <= k < |stack| => stack[k].id)
  }

  function ChipIds(chips: seq<DomChip>): (r: seq<int>)
    ensures |r| == |chips|
  {
    seq(|chips|, k requires 0 <= k < |chips| => chips[k].content.id)
  }

  /** One chip per contained node, in the same order, each with the node's
      chip content and the border its mode gives. */
  function BuildChips(table: ColorTable, links: map<int, Link>, stack: seq<Node>): (r: seq<DomChip>)
    ensures |r| == |stack|
    ensures ChipIds(r) == Ids(stack)
    ensures forall k :: 0 <= k < |r| ==> r[k].content == ChipOf(table, links, stack[k])
    ensures forall k :: 0 <= k < |r| ==> r[k].border == DomBorder(stack[k].mode)
    ensures forall k :: 0 <= k < |r| ==> (r[k].border.Some? <==> stack[k].mode in {2, 4})
  {
    seq(|stack|, k requires 0 <= k < |stack| =>
      DomChip(ChipOf(table, links, stack[k]), DomBorder(stack[k].mode)))
  }

  /** The dock of one parent: absent, or shown with the signature its
      chips were built for (`hudElement`, `lastStackSignature`). */
  datatype Dock = Absent | Visible(signature: string, chips: seq<DomChip>)

  /** A shown dock's signature is the signature of the ids its chips summarise. */
  predicate Coherent(dock: Dock) {
    dock.Visible? ==> dock.signature == Signature(ChipIds(dock.chips))
  }

  /** The dock after one callback, and whether its chips were rebuilt. */
  datatype Frame = Frame(dock: Dock, rebuilt: bool)

  /** `updateDock`: create the dock if missing (with signature ""), then
      rebuild its chips only if the signature of `stack` differs. */
  function UpdateDock(table: ColorTable, links: map<int, Link>, stack: seq<Node>, dock: Dock): (f: Frame)
    requires |stack| > 0
    ensures f.dock.Visible? && f.dock.signature == Signature(Ids(stack))
    ensures f.rebuilt <==> dock.Absent? || dock.signature != Signature(Ids(stack))
    ensures f.rebuilt ==> f.dock.chips == BuildChips(table, links, stack)
    ensures !f.rebuilt ==> f.dock == dock
    ensures Coherent(dock) ==> Coherent(f.dock)
  {
    var d := if dock.Absent? then Visible("", []) else dock;
    var current := Signature(Ids(stack));
    if current != d.signature then Frame(Visible(current, BuildChips(table, links, stack)), true)
    else Frame(d, false)
  }

  /** For a coherent shown dock, chips are rebuilt exactly when the ordered
      list of contained ids differs from the one they were built for. */
  lemma RebuildIffIdsChange(table: ColorTable, links: map<int, Link>, stack: seq<Node>, dock: Dock)
    requires |stack| > 0 && dock.Visible? && Coherent(dock)
    ensures UpdateDock(table, links, stack, dock).rebuilt <==> ChipIds(dock.chips) != Ids(stack)
  {
    SignatureInjective(ChipIds(dock.chips), Ids(stack));
  }

  /** The `onDrawForeground` hook: remove the dock unless the toggle is on
      and some node is hidden, otherwise update it. */
  function OnDrawForeground(show: bool, parent: Node, graph: Option<Graph>, table: ColorTable, dock: Dock): (f: Frame)
    ensures f.dock.Visible? <==> show && HiddenNodes(parent, graph) != []
    ensures f.dock.Visible? ==> f.dock.signature == Signature(Ids(HiddenNodes(parent, graph)))
    ensures show && HiddenNodes(parent, graph) != [] ==>
              (f.rebuilt <==> dock.Absent? || dock.signature != Signature(Ids(HiddenNodes(parent, graph))))
    ensures f.rebuilt ==> f.dock.Visible? && f.dock.chips == BuildChips(table, LinksOf(graph), HiddenNodes(parent, graph))
    ensures f.dock.Visible? && !f.rebuilt ==> f.dock == dock
    ensures dock.Absent? && f.dock.Visible? ==> f.rebuilt
    ensures f.rebuilt ==> f.dock.Visible? && dock != f.dock
    ensures Coherent(dock) ==> Coherent(f.dock)
  {
    var stack := HiddenNodes(parent, graph);
    if !(show && |stack| > 0) then Frame(Absent, false)
    else UpdateDock(table, LinksOf(graph), stack, dock)
  }

  /** Two callbacks in a row that find the same contained ids, in the same
      order: the second one keeps the chips of the first, even if links,
      titles or modes of those nodes changed in between. */
  lemma SteadyStateKeepsChips(show: bool, parent: Node, g1: Option<Graph>, g2: Option<Graph>,
                              t1: ColorTable, t2: ColorTable, dock: Dock)
    requires show && HiddenNodes(parent, g1) != []
    requires Ids(HiddenNodes(parent, g1)) == Ids(HiddenNodes(parent, g2))
    ensures var f1 := OnDrawForeground(show, parent, g1, t1, dock);
            var f2 := OnDrawForeground(show, parent, g2, t2, f1.dock);
            !f2.rebuilt && f2.dock == f1.dock
  {
  }

  /** The parent's view state: the menu toggle (`show_stack_info`) and its dock. */
  datatype HudView = HudView(show: bool, dock: Dock)

  /** Before the menu is first used the toggle is undefined, hence off. */
  const InitialView: HudView := HudView(false, Absent)

  /** The "Toggle Stack Info" menu callback: flip the toggle; the dock
      follows at the next draw callback. */
  function ToggleStackInfo(v: HudView): (r: HudView)
    ensures r.show != v.show && r.dock == v.dock
  {
    HudView(!v.show, v.dock)
  }

  /** One draw callback applied to the view. */
  function Draw(v: HudView, parent: Node, graph: Option<Graph>, table: ColorTable): HudView {
    HudView(v.show, OnDrawForeground(v.show, parent, graph, table, v.dock).dock)
  }

  /** Before the menu is first used nothing is shown; the first "Toggle
      Stack Info" followed by a draw builds the chips of the hidden nodes. */
  lemma FirstToggleBuildsDock(parent: Node, graph: Option<Graph>, table: ColorTable)
    requires HiddenNodes(parent, graph) != []
    ensures Draw(InitialView, parent, graph, table).dock == Absent
    ensures var on := ToggleStackInfo(InitialView);
            var f := OnDrawForeground(on.show, parent, graph, table, on.dock);
            f.rebuilt && f.dock.chips == BuildChips(table, LinksOf(graph), HiddenNodes(parent, graph))
  {
  }

  /** Switching the toggle off removes a shown dock at the next draw, and
      switching it on again builds the chips afresh. */
  lemma ToggleOffThenOnRebuilds(v: HudView, parent: Node, graph: Option<Graph>, table: ColorTable)
    requires v.show && HiddenNodes(parent, graph) != []
    ensures Draw(ToggleStackInfo(v), parent, graph, table).dock == Absent
    ensures var off := Draw(ToggleStackInfo(v), parent, graph, table);
            var on := ToggleStackInfo(off);
            OnDrawForeground(on.show, parent, graph, table, on.dock).rebuilt
  {
  }
}

=== FILE: graph.dfy ===
/** The slice of the host graph editor's objects the overlay reads:
    nodes with their position, size, label, mode and ports; links by id;
    and the host's link-type colour table. The overlay never mutates them. */
module HostGraph {
  import opened Options

  /** A CSS colour string such as "#aaaaff". */
  type Color = string

  /** A point in graph space (`node.pos`). */
  datatype Point = Point(x: real, y: real)

  /** A node's extent in graph space (`node.size`). */
  datatype Size = Size(w: real, h: real)

  /** A connection; only its declared data type is read. */
  datatype Link = Link(linkType: string)

  /** An input port: refers to at most one link id (`input.link`). */
  datatype InputSlot = InputSlot(link: Option<int>)

  /** An output port: a declared type and zero or more link ids (`output.links`),
      where the list itself may be absent. */
  datatype OutputSlot = OutputSlot(slotType: string, links: Option<seq<int>>)

  /** A node. An absent title is the empty string; `inputs`/`outputs` may be absent.
      `mode` is the host's mode number (2 = muted, 4 = bypassed). */
  datatype Node = Node(
    id: int,
    pos: Point,
    size: Size,
    title: string,
    nodeType: string,
    mode: int,
    inputs: Option<seq<InputSlot>>,
    outputs: Option<seq<OutputSlot>>)

  /** The graph: its node list in paint order (`graph._nodes`, possibly absent)
      and its links by id (`graph.links`). */
  datatype Graph = Graph(nodes: Option<seq<Node>>, links: map<int, Link>)

  /** The host's link-type colour table (`LGraphCanvas.link_type_colors`). */
  type ColorTable = map<string, Color>

  /** The node list of a possibly absent graph; absence reads as no nodes. */
  function NodesOf(graph: Option<Graph>): seq<Node> {
    match graph
    case None => []
    case Some(g) => g.nodes.GetOr([])
  }

  /** The links of a possibly absent graph; absence reads as no links. */
  function LinksOf(graph: Option<Graph>): map<int, Link> {
    match graph
    case None => map[]
    case Some(g) => g.links
  }

  function InputsOf(n: Node): seq<InputSlot> {
    n.inputs.GetOr([])
  }

  function OutputsOf(n: Node): seq<OutputSlot> {
    n.outputs.GetOr([])
  }

  /** JavaScript truthiness of a link id: `null` and `0` are both falsy. */
  predicate LinkIdTruthy(link: Option<int>) {
    link.Some? && link.value != 0
  }

  /** `colorMap[key]` used as a condition: an entry counts only when it is
      present and non-empty, because `""` is falsy. */
  function TableColor(table: ColorTable, key: string): (r: Option<Color>)
    ensures r.Some? <==> key in table && table[key] != ""
    ensures r.Some? ==> r.value == table[key] && r.value != ""
  {
    if key in table && table[key] != "" then Some(table[key]) else None
  }
}

=== FILE: linkcolor.dfy ===
/** The link colour resolver `getLinkColor`: the host's colour table wins
    when it has a truthy entry for the link's type, then a fixed table of
    nine well-known types, then a default. */
module LinkColors {
  import opened Options
  import opened HostGraph

  /** The default colour, also used for an absent link. */
  const DefaultLinkColor: Color := "#aaaaff"

  /** The fixed table consulted when the host table has no entry. */
  const FallbackColors: map<string, Color> := map[
    "STRING" := "#66ff66",
    "INT" := "#22cc22",
    "FLOAT" := "#22cc22",
    "LATENT" := "#ff99aa",
    "IMAGE" := "#66aaff",
    "MODEL" := "#6666aa",
    "VAE" := "#ff4444",
    "CLIP" := "#ffff66",
    "CONDITIONING" := "#aa6666"
  ]

  function Lookup(m: map<string, Color>, key: string): Option<Color> {
    if key in m then Some(m[key]) else None
  }

  /** `getLinkColor(link)` for a present link, as the chain of tests the
      resolver performs one after the other. */
  function LinkColor(table: ColorTable, link: Link): (r: Color)
    ensures TableColor(table, link.linkType).Some? ==> r == table[link.linkType]
    ensures TableColor(table, link.linkType).None? && link.linkType in FallbackColors ==>
              r == FallbackColors[link.linkType]
    ensures TableColor(table, link.linkType).None? && link.linkType !in FallbackColors ==>
              r == DefaultLinkColor
    ensures r != ""
  {
    var t := link.linkType;
    if TableColor(table, t).Some? then table[t]
    else if t == "STRING" then "#66ff66"
    else if t == "INT" then "#22cc22"
    else if t == "FLOAT" then "#22cc22"
    else if t == "LATENT" then "#ff99aa"
    else if t == "IMAGE" then "#66aaff"
    else if t == "MODEL" then "#6666aa"
    else if t == "VAE" then "#ff4444"
    else if t == "CLIP" then "#ffff66"
    else if t == "CONDITIONING" then "#aa6666"
    else DefaultLinkColor
  }

  /** The resolver as an ordered list of strategies where the first
      present answer wins: host table, fixed table, default. */
  lemma LinkColorIsFirstPresentStrategy(table: ColorTable, link: Link)
    ensures LinkColor(table, link)
         == FirstPresent([TableColor(table, link.linkType), Lookup(FallbackColors, link.linkType)],
                         DefaultLinkColor)
  {
  }

  /** `getLinkColor(link)` where the link may be absent (`if (!link)`). */
  function LinkColorOrDefault(table: ColorTable, link: Option<Link>): (r: Color)
    ensures link.None? ==> r == DefaultLinkColor
    ensures link.Some? && TableColor(table, link.value.linkType).Some? ==>
              r == table[link.value.linkType]
    ensures link.Some? && TableColor(table, link.value.linkType).None? ==>
              r == Lookup(FallbackColors, link.value.linkType).GetOr(DefaultLinkColor)
    ensures r != ""
  {
    match link
    case None => DefaultLinkColor
    case Some(l) => LinkColor(table, l)
  }
}

=== FILE: options.dfy ===
/** Optional values: JavaScript's `null`/`undefined` made explicit. */
module Options {

  datatype Option<+T> = None | Some(value: T) {

    /** The wrapped value, or `default` when there is none. */
    function GetOr(default: T): T {
      match this
      case Some(v) => v
      case None => default
    }
  }

  /** The first present value of an ordered list of candidates, else `last`:
      an ordered chain of fallback strategies where the first hit wins. */
  function FirstPresent<T>(candidates: seq<Option<T>>, last: T): (r: T)
    ensures r == last || exists i :: 0 <= i < |candidates| && candidates[i] == Some(r)
    ensures forall i :: (0 <= i < |candidates| && candidates[i].Some? &&
                         (forall j :: 0 <= j < i ==> candidates[j].None?)) ==> r == candidates[i].value
  {
    if |candidates| == 0 then last
    else if candidates[0].Some? then candidates[0].value
    else FirstPresent(candidates[1..], last)
  }
}

=== FILE: signature.dfy ===
/** The dock's content signature: the contained node ids written in
    decimal and joined with "," (`stackList.map(n => n.id).join(",")`).
    The decimal form has no comma in it, so the signature determines the
    ordered id list: comparing signatures is comparing id lists. */
module Signatures {

  function DigitChar(d: int): char
    requires 0 <= d < 10
  {
    "0123456789"[d]
  }

  /** `String(n)` for a natural number. */
  function NatToDecimal(n: nat): (s: string)
    ensures |s| >= 1
    ensures n < 10 <==> |s| == 1
    ensures forall k :: 0 <= k < |s| ==> '0' <= s[k] <= '9'
    decreases n
  {
    if n < 10 then [DigitChar(n)] else NatToDecimal(n / 10) + [DigitChar(n % 10)]
  }

  /** `String(i)` for an integer: a leading "-" for negative numbers. */
  function IntToDecimal(i: int): (s: string)
    ensures |s| >= 1
    ensures ',' !in s
    ensures s[0] == '-' <==> i < 0
  {
    if i < 0 then "-" + NatToDecimal(-i) else NatToDecimal(i)
  }

  /** Comma-joined decimal ids; the empty list gives "". */
  function Signature(ids: seq<int>): (s: string)
    ensures s == "" <==> ids == []
  {
    if |ids| == 0 then ""
    else if |ids| == 1 then IntToDecimal(ids[0])
    else IntToDecimal(ids[0]) + "," + Signature(ids[1..])
  }

  lemma {:induction false} NatToDecimalInjective(a: nat, b: nat)
    requires NatToDecimal(a) == NatToDecimal(b)
    ensures a == b
    decreases a
  {
    var s := NatToDecimal(a);
    if a >= 10 {
      assert b >= 10;
      assert NatToDecimal(a / 10) == s[..|s| - 1] == NatToDecimal(b / 10);
      NatToDecimalInjective(a / 10, b / 10);
      assert DigitChar(a % 10) == s[|s| - 1] == DigitChar(b % 10);
    }
  }

  lemma IntToDecimalInjective(a: int, b: int)
    requires IntToDecimal(a) == IntToDecimal(b)
    ensures a == b
  {
    var s := IntToDecimal(a);
    if a < 0 {
      assert NatToDecimal(-a) == s[1..] == NatToDecimal(-b);
      NatToDecimalInjective(-a, -b);
    } else {
      NatToDecimalInjective(a, b);
    }
  }

  /** In `x + "," + y` with a comma-free `x`, the first comma is at `|x|`. */
  lemma FirstComma(x: string, y: string)
    requires ',' !in x
    ensures (x + "," + y)[|x|] == ','
    ensures forall k :: 0 <= k < |x| ==> (x + "," + y)[k] != ','
  {
  }

  /** Splitting at the first comma: both parts are determined. */
  lemma SplitAtFirstComma(x: string, y: string, x': string, y': string)
    requires ',' !in x && ',' !in x'
    requires x + "," + y == x' + "," + y'
    ensures x == x' && y == y'
  {
    var s := x + "," + y;
    FirstComma(x, y);
    FirstComma(x', y');
    assert |x| == |x'|;
    assert x == s[..|x|] == x';
    assert y == s[|x| + 1..] == y';
  }

  /** A signature of two or more ids contains a comma. */
  lemma SignatureHasComma(ids: seq<int>)
    requires |ids| >= 2
    ensures ',' in Signature(ids)
  {
  }

  /** Equal signatures come from equal ordered id lists, and conversely. */
  lemma {:induction false} SignatureInjective(a: seq<int>, b: seq<int>)
    ensures Signature(a) == Signature(b) <==> a == b
    decreases |a|
  {
    if Signature(a) == Signature(b) && |a| > 0 {
      assert |b| > 0;
      if |a| == 1 && |b| >= 2 {
        SignatureHasComma(b);
        assert false;
      } else if |b| == 1 && |a| >= 2 {
        SignatureHasComma(a);
        assert false;
      } else if |a| == 1 {
        IntToDecimalInjective(a[0], b[0]);
        assert a == [a[0]] && b == [b[0]];
      } else {
        SplitAtFirstComma(IntToDecimal(a[0]), Signature(a[1..]), IntToDecimal(b[0]), Signature(b[1..]));
        IntToDecimalInjective(a[0], b[0]);
        SignatureInjective(a[1..], b[1..]);
        assert a == [a[0]] + a[1..] && b == [b[0]] + b[1..];
      }
    }
  }
}
